=== FILE: README.md ===
# bfhl-api request handler in Dafny

This project models the `POST /bfhl` handler of the bfhl-api service, with the HTTP layer taken away. Each request body holds one key, which names one of five operations:

- `fibonacci`: the first n Fibonacci numbers;
- `prime`: the prime integers of an array, in order;
- `lcm` and `hcf`: a left fold of the pairwise least common multiple or greatest common divisor over an array;
- `AI`: the first space-delimited word of the text a generative-language API answers with, or `"Unknown"`.

The handler validates the body in a fixed fail-fast order. It answers with one of two envelopes:

- success: HTTP 200, `is_success` true, the configured e-mail address and the data;
- failure: HTTP 400, `is_success` false and a message.

Modules:

- `Wrappers` (`wrappers.dfy`): `Option` and `Result`.
- `JsonValues` (`json.dfy`): the JSON values a parsed body can hold. A number is either an integer or a number for which `Number.isInteger` is false: a fraction, or an infinity from an out-of-range literal such as `1e400`. NaN cannot occur.
- `Divisibility` (`divisibility.dfy`): divisibility on the integers, the vocabulary the numeric contracts are stated in.
- `NumericHelpers` (`numeric.dfy`): the three helpers `isPrime`, `gcd` and `lcm`.
  - `isPrime` is a trial-division loop (`IsPrimeLoop`), proved equal to a recursive reference (`IsPrime`) and to primality (`Prime`).
  - `gcd` is Euclid's recursion with JavaScript's remainder, whose sign follows the dividend (`JsRem`).
  - `lcm` is `a*b/gcd(a,b)`. It gives `NaN` for `lcm(0, 0)`.
- `Operations` (`operations.dfy`): the per-key computations.
  - The Fibonacci push loop (`FibonacciByPush`) is proved against `FibonacciPrefix`.
  - `PrimeFilter` is the `filter` call of the prime branch.
  - `HcfFold` is `reduce((acc, val) => gcd(acc, val))`.
  - `LcmFold` is `reduce((acc, val) => lcm(acc, val))`. Each step is `LcmStep`, which also decides what happens once the accumulator is NaN: NaN again for a 0, the stack-overflow failure otherwise.
  - `FirstSegment` is `split(" ")[0]`, and `FirstWord` adds the fallback to `"Unknown"`.
- `Handler` (`handler.dfy`) contains:
  - `Handle`, the validation of the body;
  - `Dispatch`, the switch on the key;
  - `FibonacciOp`, `PrimeOp`, `LcmOp`, `HcfOp` and `AiOp`, the five branches with their own validation;
  - `Single`, what `reduce` answers for a one-element array: the element itself;
  - `Respond` and `Serve`, the envelopes;
  - lemmas for the validation order, each operation end to end, and concrete requests.

Two interfaces of the model:

- The generative-language API call is the parameter `upstream` of `Handle`. It is either the text of the first candidate (`None` when the answer lacks that field) or the message of the error that rejected the call.
- The configured e-mail address is the parameter `email` of `Respond`.

Three behaviours of the code are worth stating plainly:

- The `lcm` and `hcf` results depend on the order of the array unless the elements are positive (`lcm`) or non-negative (`hcf`); order independence is proved for those cases in `LcmFoldPermutation` and `HcfFoldPermutation`. With a negative element, `gcd` with JavaScript's remainder takes a sign that depends on the order: `hcf` of `[3, -3]` is -3 and of `[-3, 3]` is 3 (`HcfOrderMatters`). `lcm(0, 0)` is `NaN`, and a later `lcm(NaN, v)` with `v != 0` recurses without end inside `gcd` and fails with the engine's "Maximum call stack size exceeded", so `[0, 0, 5]` fails where `[5, 0, 0]` answers `NaN` (`LcmOrderMatters`).
- The AI word is the text split on the space character `' '` only; other whitespace, such as a newline, stays inside the word (`FirstWordKeepsNewline`).
- The AI answer is `"Unknown"` not only when the answer lacks the text field but also when the first segment is empty, i.e. when the text is empty or begins with a space.

A JavaScript array passes the handler's `typeof body === "object"` test. So an array body is treated as an object with keys `"0"`, `"1"`, …: a one-element array reaches the switch with key `"0"` and is refused as an invalid key.

## Model

| member | source | states |
|---|---|---|
| `NumericHelpers.IsPrimeLoop` | index.js:15-21 | The trial-division loop answers true exactly when n is prime, i.e. n ≥ 2 with no divisor in [2, n). It agrees with the recursive reference `IsPrime`. |
| `NumericHelpers.NoDivisorFromMeaning` | index.js:17-19 | Trial division from i succeeds exactly when no d ≥ i with d*d ≤ n divides n. |
| `NumericHelpers.IsPrimeMeansPrime` | index.js:15-21 | Testing divisors only up to √n decides primality: false for every n < 2, and for n ≥ 2 true exactly when n has no divisor in [2, n). |
| `NumericHelpers.SmallCofactor` | index.js:17 | A divisor d of n with d*d > n has a cofactor e < d with e*e ≤ n that also divides n. This is why the loop may stop at √n. |
| `NumericHelpers.JsRem` | index.js:23 | JavaScript's `%`: smaller in magnitude than the divisor, zero or of the dividend's sign, and it differs from the dividend by a multiple of the divisor. |
| `NumericHelpers.Gcd` | index.js:23 | Euclid's recursion terminates. The result divides both arguments, every common divisor divides it, and it is non-negative for non-negative arguments. |
| `NumericHelpers.RemainderKeepsCommonDivisors` | index.js:23 | Replacing (a, b) by (b, a % b) keeps the set of common divisors. This is the invariant of Euclid's recursion. |
| `NumericHelpers.GcdZero` | index.js:23 | gcd is 0 exactly when both arguments are 0. |
| `NumericHelpers.GcdGreatest` | index.js:23 | For non-negative arguments, not both 0, gcd is positive and at least every common divisor. |
| `NumericHelpers.GcdAbs` | index.js:23 | The magnitude of gcd does not depend on the signs of the arguments. |
| `NumericHelpers.CommonDivisorDividesGcd` | index.js:23 | Every common divisor of a and b divides gcd(a, b). |
| `NumericHelpers.GcdScale` | index.js:23 | For non-negative arguments, gcd(c·x, c·y) = c·gcd(x, y). |
| `NumericHelpers.Lcm` | index.js:24 | The result is NaN exactly for lcm(0, 0). Otherwise the division is exact, i.e. result × gcd = a × b, and the result is a common multiple of a and b. |
| `NumericHelpers.QuotientByGcd` | index.js:24 | a·b divided by a common divisor g is exact and is a multiple of both a and b. |
| `NumericHelpers.LcmNonZero` | index.js:24 | lcm of two non-zero integers is a non-zero integer. |
| `NumericHelpers.LcmLeast` | index.js:24 | For positive a and b, lcm is positive and divides every common multiple of a and b. |
| `NumericHelpers.CoprimeCofactors` | index.js:24 | For non-negative a and b, dividing them by their gcd leaves cofactors with gcd 1. |
| `NumericHelpers.MultipleOfCoprimeProduct` | index.js:24 | For positive g, x and y with x and y coprime, a non-negative number divisible by g·x and g·y is divisible by g·x·y. This is the step behind `LcmLeast`. |
| `Operations.FibonacciPrefix` | index.js:67-71 | The answer for n has length n, starts 0, 1 (as far as n allows), and each later element is the sum of the two before it. |
| `Operations.FibonacciPrefixUnique` | index.js:67-71 | Only one sequence meets that description, so the answer is fully determined. |
| `Operations.FibonacciByPush` | index.js:67-71 | Growing `[0, 1]` by pushes for i = 2 … n-1 and then slicing to n gives exactly the first n Fibonacci numbers, including [] for n = 0 and [0] for n = 1. |
| `Operations.PrimeFilter` | index.js:79-81 | The filter keeps at most as many elements as it is given. |
| `Operations.PrimeFilterMeaning` | index.js:79-81 | Every kept element is prime. An integer is in the answer exactly when it is an integer element of the input and prime. |
| `Operations.PrimeFilterCons` | index.js:79-81 | The answer for an array starts with its first element exactly when that element is an integer that is prime (primality in the mathematical sense, not the trial-division test), and continues with the answer for the remaining elements. |
| `Operations.PrimeFilterSingle` | index.js:79-81 | A one-element array keeps its element exactly when it is a prime integer. |
| `Operations.PrimeFilterAppend` | index.js:79-81 | Filtering a concatenation is the concatenation of the filtered parts, so the answer is an order-preserving subsequence. |
| `Operations.HcfFoldIsGcd` | index.js:97 | The left fold of gcd seeded with the first element divides every element, every common divisor of the elements divides it, and it is non-negative when all elements are. |
| `Operations.HcfStep` | index.js:97 | One fold step, gcd(h, x), turns the greatest common divisor of a prefix into that of the prefix extended by x. |
| `Operations.HcfFoldPermutation` | index.js:97 | For non-negative elements, reordering the array does not change the hcf. |
| `Operations.HcfOrderMatters` | index.js:97 | The hcf of `[3, -3]` is -3 and that of `[-3, 3]` is 3. |
| `Operations.LcmFoldFailure` | index.js:89 | The lcm fold fails only with the engine's stack-overflow message, and only when at least two elements are 0: the accumulator turns NaN only through an lcm(0, 0), which needs two zeros, and it is 0 only when some element is 0. |
| `Operations.LcmOrderMatters` | index.js:89 | `[0, 0, 5]` fails with the stack-overflow message while `[5, 0, 0]` answers NaN. |
| `Operations.LcmFoldIsLcm` | index.js:89 | For positive elements, the left fold of lcm succeeds with a positive common multiple of all elements that divides every common multiple. |
| `Operations.LcmStepIsLcm` | index.js:89 | One fold step, lcm(l, x), turns the least common multiple of a prefix into that of the prefix extended by x. |
| `Operations.LcmFoldNonZero` | index.js:89 | For non-zero elements, the lcm fold never reaches NaN and its result is non-zero. |
| `Operations.LcmFoldPermutation` | index.js:89 | For positive elements, reordering the array does not change the lcm. |
| `Operations.FirstSegment` | index.js:113-114 | `split(" ")[0]` is the longest prefix without a space: it holds no space and is followed by a space or the end of the text. |
| `Operations.FirstSegmentUnique` | index.js:113-114 | Any prefix without a space that ends at a space or at the end of the text is that segment. |
| `Operations.FirstWord` | index.js:112-114 | The word is "Unknown" when the text is missing, empty or starts with a space. Otherwise it is the text's first space-delimited segment. It is never empty and never holds a space. |
| `Operations.FirstWordKeepsNewline` | index.js:113-114 | Only the space character splits: the word of "a\nb c" is "a\nb". |
| `Handler.SoleKey` | index.js:47-58 | The key of a one-key object is its only key. |
| `Handler.Integers` | index.js:89-97 | The integer values of an all-integer array, element for element. |
| `Handler.IntegersAre` | index.js:89-97 | An integer is among those values exactly when it is an element of the array. |
| `Handler.Respond` | index.js:125-134 | An answer gives a 200 envelope with is_success true, the e-mail and the data and no message. A failure gives a 400 envelope with is_success false and the failure's message and nothing else. |
| `Handler.BodyMustBeObject` | index.js:40-45 | A missing body, or one that is not an object, is refused with "Request body is required" before anything else. |
| `Handler.ExactlyOneKey` | index.js:47-56 | An object body with any key count but one, `{}` included, is refused with "Exactly one key is required", whatever the keys. |
| `Handler.ArrayBodyKeyCount` | index.js:40-56 | An array body passes the object test, and its keys are its indices. Any length but one, `[]` included, is refused with "Exactly one key is required". |
| `Handler.OneKeyDispatches` | index.js:58-61 | A one-key body is handled by the switch on that key, with that key's value. |
| `Handler.UnknownKey` | index.js:118-122 | An object body whose single key names none of the five operations is refused with "Invalid key". |
| `Handler.ArrayBodyInvalidKey` | index.js:47-122 | A one-element array body reaches the switch with the key "0", which is refused with "Invalid key". |
| `Handler.FailureMessages` | index.js:37-134 | Every failure carries one of the fixed validation messages, the engine's stack-overflow message, or the message of the rejected upstream call. |
| `Handler.LcmFoldMessage` | index.js:85-91 | The lcm branch fails only with "LCM expects a non-empty array" or the stack-overflow message. |
| `Handler.UpstreamOnlyForAi` | index.js:101-116 | The upstream API's answer matters only for a one-key `AI` request with a string prompt. |
| `Handler.FibonacciRequest` | index.js:62-73 | A non-negative integer n answers the first n Fibonacci numbers. Any other value is refused with "Invalid fibonacci input". |
| `Handler.PrimeRequest` | index.js:75-83 | An array answers its prime integer elements: each one prime, and every prime integer element present. Non-integers are dropped. A non-array is refused with "Prime expects an array". |
| `Handler.LcmRequest` | index.js:85-91 | A non-array or empty array is refused with "LCM expects a non-empty array". A one-element array answers that element unchanged (`reduce` never calls `lcm`). Positive integers answer their least common multiple. |
| `Handler.HcfRequest` | index.js:93-99 | A non-array or empty array is refused with "HCF expects a non-empty array". A one-element array answers that element unchanged (`reduce` never calls `gcd`). Integers answer a greatest common divisor of them, non-negative when they are. |
| `Handler.AiRequest` | index.js:101-116 | A non-string prompt is refused with "AI expects a string", and a rejected upstream call fails with its own message. Otherwise the answer is the first space-delimited word of the text, or "Unknown". |
| `Handler.FibonacciExample` | index.js:62-73 | `{"fibonacci": 5}` answers [0, 1, 1, 2, 3]. |
| `Handler.PrimeExample` | index.js:75-83 | `{"prime": [1, 2, 3, 4, 17, "x"]}` answers [2, 3, 17]. |
| `Handler.PrimeFilterExample` | index.js:79-81 | The prime filter of [1, 2, 3, 4, 17, "x"] is [2, 3, 17]. |
| `Handler.LcmExample` | index.js:85-91 | `{"lcm": [4, 6]}` answers 12. |
| `Handler.HcfExample` | index.js:93-99 | `{"hcf": [12, 18]}` answers 6. |
| `Handler.EmptyBodyExample` | index.js:50-56 | `{}` is refused with "Exactly one key is required". |

## Left out

- Express setup, CORS, JSON body parsing and the server start with its log line (index.js:1-10, 138-142): framework and I/O plumbing. The model receives the body already parsed, as an optional JSON value; a body the parser refuses never reaches the handler.
- `GET /health` (index.js:27-32): it returns a constant envelope and has no logic.
- The POST to the generative-language API and the read of its key (index.js:105-110): a network call. It becomes the parameter `upstream`. Two TypeErrors the post-processing can throw are not modelled: one for an answer whose text field holds a non-string, where `split` fails, and one for an answer whose body is JSON `null`, where reading `candidates` fails (index.js:113). The source turns each into a 400 envelope with the TypeError's message. In the model, a successful `upstream` always gives a word, so such answers can only be represented as `upstream == Failure(message)`.
- Environment configuration through dotenv (index.js:6, 12): the e-mail address is the parameter `email`, and an unset address, which drops the field from the envelope, is not modelled.
- Floating-point numbers: JSON numbers are mathematical integers or "not an integer", and every computation is exact. JavaScript loses precision in two places the model does not follow. In `lcm` a large product `a*b` is rounded. In the Fibonacci branch (index.js:67-71) numbers above 2^53 are rounded: Fib(79) = 14472334024676221 becomes 14472334024676220 for n ≥ 80, and from n = 1478 on the answer holds `Infinity`, which is sent as `null`. `FibonacciPrefix` and `FibonacciRequest` give the exact Fib(k) for every n. Memory exhaustion is not modelled either: for a huge integer n such as `1e9` the push loop (index.js:68-70) runs out of heap and the process dies without answering, while `FibonacciRequest` still promises the full prefix.
- `Handler.LcmOp`, `Handler.HcfOp`: for an array of two or more elements where some element is not an integer (a string, a fraction, null, …), JavaScript's coercion inside `gcd`/`lcm` is not followed; the model answers `NotModelled`, and `Respond` gives no envelope for it.
- The stack overflow of `gcd(NaN, v)` is modelled by its V8 message "Maximum call stack size exceeded"; other engines word it differently.
- async/await and try/catch: a thrown error is the `Fail` outcome carrying the error's message.
- `Operations.HcfFoldPermutation`: order independence is stated for non-negative elements only, because with negative elements the sign of the result depends on the order.
- `Operations.LcmFoldPermutation`: order independence is stated for positive elements only, because zeros and negative elements make the result depend on the order (NaN, stack overflow, sign).

=== FILE: divisibility.dfy ===
/**
 Divisibility on the integers, the vocabulary in which the numeric helpers of
 the handler (prime test, greatest common divisor, least common multiple) are
 specified. Every fact here is about mathematical integers; no JavaScript
 semantics is involved.
 */
module Divisibility {

  function Abs(x: int): (r: nat)
    ensures r == x || r == -x
  {
    if x < 0 then -x else x
  }

  /** d divides n: n is an integer multiple of d (so 0 divides only 0). */
  ghost predicate Divides(d: int, n: int)
  {
    if d == 0 then n == 0 else n % d == 0
  }

  /** Euclidean division has exactly one quotient and remainder. */
  lemma DivModUnique(n: int, d: int, q: int, r: int)
    requires d > 0 && n == d * q + r && 0 <= r < d
    ensures n / d == q && n % d == r
  {
    var q0, r0 := n / d, n % d;
    assert n == d * q0 + r0;
    assert d * (q - q0) == r0 - r;
    if q > q0 {
      MulAtLeast(d, q - q0);
    } else if q < q0 {
      MulAtLeast(d, q0 - q);
    }
  }

  lemma MulAtLeast(d: int, k: int)
    requires d > 0 && k >= 1
    ensures d * k >= d
  {
    assert d * k == d * (k - 1) + d;
  }

  /** n is a multiple of d exactly when n == d * k for some k. */
  lemma DividesWitness(d: int, n: int, k: int)
    requires n == d * k
    ensures Divides(d, n)
  {
    if d > 0 {
      DivModUnique(n, d, k, 0);
    } else if d < 0 {
      DivModUnique(n, -d, -k, 0);
      ModNegDivisor(n, d);
    }
  }

  lemma ModNegDivisor(n: int, d: int)
    requires d < 0
    ensures n % d == n % (-d)
  {
    var q, r := n / (-d), n % (-d);
    assert n == (-d) * q + r && 0 <= r < -d;
    assert n == d * (-q) + r;
  }

  /** The quotient of a multiple. */
  lemma DividesQuotient(d: int, n: int)
    requires Divides(d, n) && d != 0
    ensures n == d * (n / d)
  {
  }

  lemma DividesZero(d: int)
    ensures Divides(d, 0)
  {
    DividesWitness(d, 0, 0);
  }

  lemma DividesSelf(d: int)
    ensures Divides(d, d)
  {
    DividesWitness(d, d, 1);
  }

  /** Common divisors of a and b divide every integer combination of them. */
  lemma DividesCombination(d: int, a: int, b: int, x: int, y: int)
    requires Divides(d, a) && Divides(d, b)
    ensures Divides(d, x * a + y * b)
  {
    if d != 0 {
      var p, q := a / d, b / d;
      DividesQuotient(d, a);
      DividesQuotient(d, b);
      assert x * a + y * b == d * (x * p + y * q) by {
        calc {
          x * a + y * b;
          x * (d * p) + y * (d * q);
          d * (x * p) + d * (y * q);
          d * (x * p + y * q);
        }
      }
      DividesWitness(d, x * a + y * b, x * p + y * q);
    }
  }

  lemma DividesTrans(d: int, m: int, n: int)
    requires Divides(d, m) && Divides(m, n)
    ensures Divides(d, n)
  {
    if m == 0 {
    } else {
      DividesQuotient(m, n);
      DividesCombination(d, m, m, n / m, 0);
      assert n == (n / m) * m + 0 * m;
    }
  }

  /** A positive multiple is at least as large as its divisor. */
  lemma DividesBound(d: int, n: int)
    requires Divides(d, n) && n > 0
    ensures d <= n
  {
    if d > 0 {
      DividesQuotient(d, n);
      MulAtLeast(d, n / d);
    }
  }

  /** Among non-negative integers, mutual divisibility is equality. */
  lemma DividesAntisymmetric(a: int, b: int)
    requires a >= 0 && b >= 0 && Divides(a, b) && Divides(b, a)
    ensures a == b
  {
    if a > 0 && b > 0 {
      DividesBound(a, b);
      DividesBound(b, a);
    }
  }
}

=== FILE: handler.dfy ===
/**
 POST /bfhl with the HTTP layer taken away: the fail-fast validation of the
 body, the switch on its only key, and the success and failure envelopes.

 The one outside collaborator, the generative-language API asked by the AI
 operation, is a parameter: `upstream` is either the text of the first
 candidate of its answer (None when the answer lacks that field) or the
 message of the error the call was rejected with.
 */
module Handler {
  import opened Wrappers
  import opened JsonValues
  import opened Divisibility
  import opened NumericHelpers
  import opened Operations

  const BodyRequired := "Request body is required"
  const OneKeyRequired := "Exactly one key is required"
  const InvalidKey := "Invalid key"
  const InvalidFibonacci := "Invalid fibonacci input"
  const PrimeNeedsArray := "Prime expects an array"
  const LcmNeedsArray := "LCM expects a non-empty array"
  const HcfNeedsArray := "HCF expects a non-empty array"
  const AiNeedsString := "AI expects a string"

  /** The `data` of a success envelope. */
  datatype Data =
    | Numbers(items: seq<int>)  // fibonacci, prime
    | Integer(value: int)       // lcm, hcf
    | NotANumber                // lcm that met gcd 0 (NaN, sent as null)
    | Element(element: Json)    // lcm, hcf of a one-element array whose element is not an integer
    | Word(word: string)        // AI

  /** How handling one request ends: with data, with the message of a
      failure, or in an lcm or hcf reduction over a non-integer element, whose
      JavaScript type coercions this model does not follow. */
  datatype Outcome = Ok(data: Data) | Fail(message: string) | NotModelled

  /** The source's requests: one key naming an operation, any value. */
  function Request(key: string, value: Json): Option<Json>
  {
    Some(Obj(map[key := value]))
  }

  /** The only key of a one-key object. */
  function SoleKey(fields: map<string, Json>): (k: string)
    requires |fields| == 1
    ensures fields.Keys == {k}
  {
    SingletonKeys(fields);
    var k :| k in fields;
    k
  }

  lemma SingletonKeys(fields: map<string, Json>)
    requires |fields| == 1
    ensures forall a, b :: a in fields && b in fields ==> a == b
  {
    forall a, b | a in fields && b in fields
      ensures a == b
    {
      assert |fields.Keys - {a}| == 0;
    }
  }

  /** The whole handler: the body must be an object (arrays are objects in
      JavaScript, with keys "0", "1", ...), with exactly one key, which the
      switch then dispatches on. */
  function Handle(body: Option<Json>, upstream: Result<Option<string>, string>): Outcome
  {
    match body
    case Some(Obj(fields)) =>
      if |fields| != 1 then Fail(OneKeyRequired)
      else
        var key := SoleKey(fields);
        Dispatch(key, fields[key], upstream)
    case Some(Arr(items)) =>
      if |items| != 1 then Fail(OneKeyRequired)
      else Dispatch("0", items[0], upstream)
    case _ => Fail(BodyRequired)
  }

  /** The switch on the body's only key. */
  function Dispatch(key: string, value: Json, upstream: Result<Option<string>, string>): Outcome
  {
    match key
    case "fibonacci" => FibonacciOp(value)
    case "prime" => PrimeOp(value)
    case "lcm" => LcmOp(value)
    case "hcf" => HcfOp(value)
    case "AI" => AiOp(value, upstream)
    case _ => Fail(InvalidKey)
  }

  function FibonacciOp(value: Json): Outcome
  {
    if value.Num? && value.n.Int? && value.n.value >= 0 then
      Ok(Numbers(FibonacciPrefix(value.n.value)))
    else
      Fail(InvalidFibonacci)
  }

  function PrimeOp(value: Json): Outcome
  {
    if value.Arr? then Ok(Numbers(PrimeFilter(value.items))) else Fail(PrimeNeedsArray)
  }

  predicate AllIntegers(items: seq<Json>)
  {
    forall x :: x in items ==> IsInteger(x)
  }

  /** Every element is an integer greater than 0. */
  predicate AllPositive(items: seq<Json>)
  {
    forall x :: x in items ==> IsInteger(x) && x.n.value > 0
  }

  /** The integers of an array whose elements are all integers. */
  function Integers(items: seq<Json>): (r: seq<int>)
    requires AllIntegers(items)
    ensures |r| == |items| && forall k :: 0 <= k < |r| ==> items[k] == Num(Int(r[k]))
  {
    assert forall k :: 0 <= k < |items| ==> items[k] in items;
    seq(|items|, k requires 0 <= k < |items| => items[k].n.value)
  }

  lemma IntegersAre(items: seq<Json>)
    requires AllIntegers(items)
    ensures forall v :: v in Integers(items) <==> Num(Int(v)) in items
    ensures forall x :: x in items ==> x.n.value in Integers(items)
  {
    var ints := Integers(items);
    forall x | x in items
      ensures x.n.value in ints
    {
      var k :| 0 <= k < |items| && items[k] == x;
      assert ints[k] == x.n.value;
    }
    forall v | Num(Int(v)) in items
      ensures v in ints
    {
      assert Num(Int(v)).n.value == v;
    }
  }

  /** `reduce` on a one-element array gives back that element; the callback is never called. */
  function Single(x: Json): Outcome
  {
    if IsInteger(x) then Ok(Integer(x.n.value)) else Ok(Element(x))
  }

  function LcmOp(value: Json): Outcome
  {
    if !value.Arr? || |value.items| == 0 then Fail(LcmNeedsArray)
    else if |value.items| == 1 then Single(value.items[0])
    else if !AllIntegers(value.items) then NotModelled
    else
      match LcmFold(Integers(value.items))
      case Success(Whole(l)) => Ok(Integer(l))
      case Success(NaN) => Ok(NotANumber)
      case Failure(e) => Fail(e)
  }

  function HcfOp(value: Json): Outcome
  {
    if !value.Arr? || |value.items| == 0 then Fail(HcfNeedsArray)
    else if |value.items| == 1 then Single(value.items[0])
    else if !AllIntegers(value.items) then NotModelled
    else Ok(Integer(HcfFold(Integers(value.items))))
  }

  function AiOp(value: Json, upstream: Result<Option<string>, string>): Outcome
  {
    if !value.Str? then Fail(AiNeedsString)
    else
      match upstream
      case Failure(e) => Fail(e)
      case Success(text) => Ok(Word(FirstWord(text)))
  }

  // ---------- envelopes ----------

  /** The JSON envelope sent back, with its HTTP status; a field the
      envelope leaves out is None. */
  datatype Response = Response(
    status: int,
    isSuccess: bool,
    officialEmail: Option<string>,
    message: Option<string>,
    data: Option<Data>)

  /** The two envelope shapes: a 200 success carries the e-mail and the data
      and no message; a 400 failure carries a message and nothing else. */
  ghost predicate WellFormed(r: Response)
  {
    && (r.status == 200 || r.status == 400)
    && (r.isSuccess <==> r.status == 200)
    && (r.isSuccess ==> r.officialEmail.Some? && r.data.Some? && r.message.None?)
    && (!r.isSuccess ==> r.message.Some? && r.data.None? && r.officialEmail.None?)
  }

  /** The envelope for an outcome: success exactly for an answer, which it
      carries with the configured e-mail; otherwise the failure's message.
      (No envelope is modelled for an outcome the model does not follow.) */
  function Respond(email: string, outcome: Outcome): (r: Option<Response>)
    ensures r.Some? <==> !outcome.NotModelled?
    ensures r.Some? ==> WellFormed(r.value) && (r.value.isSuccess <==> outcome.Ok?)
    ensures r.Some? && outcome.Ok? ==> r.value.data == Some(outcome.data) && r.value.officialEmail == Some(email)
    ensures r.Some? && outcome.Fail? ==> r.value.message == Some(outcome.message)
  {
    match outcome
    case Ok(d) => Some(Response(200, true, Some(email), None, Some(d)))
    case Fail(m) => Some(Response(400, false, None, Some(m), None))
    case NotModelled => None
  }

  /** POST /bfhl end to end. */
  function Serve(email: string, body: Option<Json>, upstream: Result<Option<string>, string>): Option<Response>
  {
    Respond(email, Handle(body, upstream))
  }

  // ---------- validation order ----------

  /** A missing body, or one that is not an object, is refused first. */
  lemma BodyMustBeObject(body: Option<Json>, upstream: Result<Option<string>, string>)
    requires body.None? || !(body.value.Obj? || body.value.Arr?)
    ensures Handle(body, upstream) == Fail(BodyRequired)
  {
  }

  /** An object with any number of keys but one is refused, whatever the keys. */
  lemma ExactlyOneKey(fields: map<string, Json>, upstream: Result<Option<string>, string>)
    requires |fields| != 1
    ensures Handle(Some(Obj(fields)), upstream) == Fail(OneKeyRequired)
  {
  }

  /** A one-key body is dispatched on its key, with that key's value. */
  lemma OneKeyDispatches(key: string, value: Json, upstream: Result<Option<string>, string>)
    ensures Handle(Request(key, value), upstream) == Dispatch(key, value, upstream)
  {
    var fields := map[key := value];
    assert fields.Keys == {key};
    assert SoleKey(fields) == key;
  }

  /** A single key that names none of the five operations is refused. */
  lemma UnknownKey(key: string, value: Json, upstream: Result<Option<string>, string>)
    requires key !in {"fibonacci", "prime", "lcm", "hcf", "AI"}
    ensures Handle(Request(key, value), upstream) == Fail(InvalidKey)
  {
    OneKeyDispatches(key, value, upstream);
  }

  /** An array body has the keys "0", "1", ...: any length but one is
      refused for its key count. */
  lemma ArrayBodyKeyCount(items: seq<Json>, upstream: Result<Option<string>, string>)
    requires |items| != 1
    ensures Handle(Some(Arr(items)), upstream) == Fail(OneKeyRequired)
  {
  }

  /** A one-element array body has the only key "0", which names no operation. */
  lemma ArrayBodyInvalidKey(x: Json, upstream: Result<Option<string>, string>)
    ensures Handle(Some(Arr([x])), upstream) == Fail(InvalidKey)
  {
  }

  /** Every failure message is one of the fixed validation messages, the
      engine's message for an endless recursion, or the message of the
      rejected upstream call. */
  lemma FailureMessages(body: Option<Json>, upstream: Result<Option<string>, string>)
    ensures Handle(body, upstream).Fail? ==>
      || Handle(body, upstream).message in
           {BodyRequired, OneKeyRequired, InvalidKey, InvalidFibonacci, PrimeNeedsArray,
            LcmNeedsArray, HcfNeedsArray, AiNeedsString, StackOverflow}
      || (upstream.Failure? && Handle(body, upstream).message == upstream.error)
  {
    var o := Handle(body, upstream);
    if o.Fail? {
      match body
      case Some(Obj(fields)) =>
        if |fields| == 1 {
          var key := SoleKey(fields);
          LcmFoldMessage(fields[key]);
        }
      case Some(Arr(items)) =>
      case _ =>
    }
  }

  lemma LcmFoldMessage(value: Json)
    ensures LcmOp(value).Fail? ==> LcmOp(value).message in {LcmNeedsArray, StackOverflow}
  {
    if value.Arr? && |value.items| > 1 && AllIntegers(value.items) {
      LcmFoldFailure(Integers(value.items));
    }
  }

  /** The answer depends on the upstream call only for an AI request with a string prompt. */
  lemma UpstreamOnlyForAi(body: Option<Json>, up1: Result<Option<string>, string>, up2: Result<Option<string>, string>)
    requires Handle(body, up1) != Handle(body, up2)
    ensures body.Some? && body.value.Obj? && body.value.fields.Keys == {"AI"}
    ensures body.value.fields["AI"].Str?
  {
    match body
    case Some(Obj(fields)) =>
      var key := SoleKey(fields);
      assert key == "AI";
    case Some(Arr(items)) =>
    case _ =>
  }

  // ---------- the five operations ----------

  /** fibonacci: a non-negative integer n gives the first n Fibonacci numbers;
      anything else is refused. */
  lemma FibonacciRequest(value: Json, upstream: Result<Option<string>, string>)
    ensures var o := Handle(Request("fibonacci", value), upstream);
      if value.Num? && value.n.Int? && value.n.value >= 0 then
        o.Ok? && o.data.Numbers? && IsFibonacciPrefix(o.data.items, value.n.value)
      else
        o == Fail(InvalidFibonacci)
  {
    OneKeyDispatches("fibonacci", value, upstream);
  }

  /** prime: an array gives its integer elements that are prime, in order;
      anything else is refused. */
  lemma PrimeRequest(value: Json, upstream: Result<Option<string>, string>)
    ensures var o := Handle(Request("prime", value), upstream);
      if value.Arr? then
        && o.Ok? && o.data.Numbers?
        && (forall k :: 0 <= k < |o.data.items| ==> Prime(o.data.items[k]))
        && (forall p :: p in o.data.items <==> Num(Int(p)) in value.items && Prime(p))
      else
        o == Fail(PrimeNeedsArray)
  {
    OneKeyDispatches("prime", value, upstream);
    if value.Arr? {
      PrimeFilterMeaning(value.items);
    }
  }

  /** lcm: a non-array or an empty array is refused; a one-element array
      gives back its element; an array of positive integers gives their least
      common multiple. */
  lemma LcmRequest(value: Json, upstream: Result<Option<string>, string>)
    ensures var o := Handle(Request("lcm", value), upstream);
      && (!value.Arr? || value.items == [] ==> o == Fail(LcmNeedsArray))
      && (value.Arr? && |value.items| == 1 ==>
            o == Ok(if IsInteger(value.items[0]) then Integer(value.items[0].n.value) else Element(value.items[0])))
      && (value.Arr? && value.items != [] && AllPositive(value.items) ==>
            && o.Ok? && o.data.Integer? && o.data.value > 0
            && (forall x :: x in value.items ==> Divides(x.n.value, o.data.value))
            && (forall m :: (forall x :: x in value.items ==> Divides(x.n.value, m)) ==> Divides(o.data.value, m)))
  {
    OneKeyDispatches("lcm", value, upstream);
    if value.Arr? && value.items != [] && AllPositive(value.items) {
      var xs := value.items;
      if |xs| == 1 {
        assert xs[0] in xs;
        DividesSelf(xs[0].n.value);
      } else {
        var ints := Integers(xs);
        IntegersAre(xs);
        LcmFoldIsLcm(ints);
      }
    }
  }

  /** hcf: a non-array or an empty array is refused; a one-element array
      gives back its element; an array of integers gives a greatest common
      divisor of them, non-negative when they all are. */
  lemma HcfRequest(value: Json, upstream: Result<Option<string>, string>)
    ensures var o := Handle(Request("hcf", value), upstream);
      && (!value.Arr? || value.items == [] ==> o == Fail(HcfNeedsArray))
      && (value.Arr? && |value.items| == 1 ==>
            o == Ok(if IsInteger(value.items[0]) then Integer(value.items[0].n.value) else Element(value.items[0])))
      && (value.Arr? && value.items != [] && AllIntegers(value.items) ==>
            && o.Ok? && o.data.Integer?
            && (forall x :: x in value.items ==> Divides(o.data.value, x.n.value))
            && (forall d :: (forall x :: x in value.items ==> Divides(d, x.n.value)) ==> Divides(d, o.data.value))
            && ((forall x :: x in value.items ==> x.n.value >= 0) ==> o.data.value >= 0))
  {
    OneKeyDispatches("hcf", value, upstream);
    if value.Arr? && value.items != [] && AllIntegers(value.items) {
      var xs := value.items;
      if |xs| == 1 {
        assert xs[0] in xs;
        DividesSelf(xs[0].n.value);
      } else {
        var ints := Integers(xs);
        IntegersAre(xs);
        HcfFoldIsGcd(ints);
      }
    }
  }

  /** AI: a prompt that is not a string is refused; a rejected upstream call
      fails with its own message; otherwise the answer is the first
      space-delimited word of the generated text, or "Unknown" when there is
      no text or it begins with a space or is empty. */
  lemma AiRequest(value: Json, upstream: Result<Option<string>, string>)
    ensures var o := Handle(Request("AI", value), upstream);
      && (!value.Str? ==> o == Fail(AiNeedsString))
      && (value.Str? && upstream.Failure? ==> o == Fail(upstream.error))
      && (value.Str? && upstream.Success? ==>
            var text := upstream.value;
            && o.Ok? && o.data.Word? && o.data.word != "" && ' ' !in o.data.word
            && (text.None? || text.value == "" || text.value[0] == ' ' ==> o.data.word == "Unknown")
            && (text.Some? && text.value != "" && text.value[0] != ' ' ==>
                  o.data.word <= text.value && (|o.data.word| == |text.value| || text.value[|o.data.word|] == ' ')))
  {
    OneKeyDispatches("AI", value, upstream);
  }

  /** {"fibonacci": 5} answers [0, 1, 1, 2, 3]. */
  lemma FibonacciExample(upstream: Result<Option<string>, string>)
    ensures Handle(Request("fibonacci", Num(Int(5))), upstream) == Ok(Numbers([0, 1, 1, 2, 3]))
  {
    OneKeyDispatches("fibonacci", Num(Int(5)), upstream);
    assert Fib(2) == 1 && Fib(3) == 2 && Fib(4) == 3;
    assert FibonacciPrefix(5) == [0, 1, 1, 2, 3];
  }

  /** {"prime": [1, 2, 3, 4, 17, "x"]} answers [2, 3, 17]. */
  lemma PrimeExample(upstream: Result<Option<string>, string>)
    ensures Handle(Request("prime", Arr([Num(Int(1)), Num(Int(2)), Num(Int(3)), Num(Int(4)), Num(Int(17)), Str("x")])), upstream)
         == Ok(Numbers([2, 3, 17]))
  {
    var xs := [Num(Int(1)), Num(Int(2)), Num(Int(3)), Num(Int(4)), Num(Int(17)), Str("x")];
    OneKeyDispatches("prime", Arr(xs), upstream);
    PrimeFilterExample();
  }

  lemma PrimeFilterExample()
    ensures PrimeFilter([Num(Int(1)), Num(Int(2)), Num(Int(3)), Num(Int(4)), Num(Int(17)), Str("x")]) == [2, 3, 17]
  {
    assert NoDivisorFrom(17, 5) && NoDivisorFrom(17, 4) && NoDivisorFrom(17, 3) && NoDivisorFrom(17, 2);
    assert IsPrime(2) && IsPrime(3) && !IsPrime(4) && IsPrime(17) && !IsPrime(1);
    IsPrimeMeansPrime(1);
    IsPrimeMeansPrime(2);
    IsPrimeMeansPrime(3);
    IsPrimeMeansPrime(4);
    IsPrimeMeansPrime(17);
    var x1, x2, x3, x4, x17, xx := Num(Int(1)), Num(Int(2)), Num(Int(3)), Num(Int(4)), Num(Int(17)), Str("x");
    PrimeFilterCons(xx, []);
    PrimeFilterCons(x17, [xx]);
    PrimeFilterCons(x4, [x17, xx]);
    PrimeFilterCons(x3, [x4, x17, xx]);
    PrimeFilterCons(x2, [x3, x4, x17, xx]);
    PrimeFilterCons(x1, [x2, x3, x4, x17, xx]);
  }

  /** {"lcm": [4, 6]} answers 12. */
  lemma LcmExample(upstream: Result<Option<string>, string>)
    ensures Handle(Request("lcm", Arr([Num(Int(4)), Num(Int(6))])), upstream) == Ok(Integer(12))
  {
    var xs := [Num(Int(4)), Num(Int(6))];
    OneKeyDispatches("lcm", Arr(xs), upstream);
    assert Integers(xs) == [4, 6];
    assert Gcd(4, 6) == 2 by {
      assert JsRem(4, 6) == 4 && JsRem(6, 4) == 2 && JsRem(4, 2) == 0;
      assert Gcd(2, 0) == 2;
    }
    assert LcmFold([4, 6]) == Success(Whole(12));
  }

  /** {"hcf": [12, 18]} answers 6. */
  lemma HcfExample(upstream: Result<Option<string>, string>)
    ensures Handle(Request("hcf", Arr([Num(Int(12)), Num(Int(18))])), upstream) == Ok(Integer(6))
  {
    var xs := [Num(Int(12)), Num(Int(18))];
    OneKeyDispatches("hcf", Arr(xs), upstream);
    assert Integers(xs) == [12, 18];
    assert Gcd(12, 18) == 6 by {
      assert JsRem(12, 18) == 12 && JsRem(18, 12) == 6 && JsRem(12, 6) == 0;
      assert Gcd(6, 0) == 6;
    }
    assert HcfFold([12, 18]) == 6;
  }

  /** {} is refused for its key count. */
  lemma EmptyBodyExample(upstream: Result<Option<string>, string>)
    ensures Handle(Some(Obj(map[])), upstream) == Fail(OneKeyRequired)
  {
  }
}

=== FILE: json.dfy ===
/** The JSON values a parsed request body is made of. */
module JsonValues {

  /** A JSON number. `Int` is a number for which `Number.isInteger` holds;
      `NonInteger` stands for every number for which it does not: a fraction,
      or an infinity from an out-of-range literal such as 1e400. The model
      does not track its value. NaN cannot occur in a parsed body. */
  datatype Number = Int(value: int) | NonInteger

  datatype Json =
    | Null
    | Bool(b: bool)
    | Num(n: Number)
    | Str(s: string)
    | Arr(items: seq<Json>)
    | Obj(fields: map<string, Json>)

  /** `Number.isInteger(v)`: true of integral numbers only, never of strings,
      booleans, null, arrays or objects. */
  predicate IsInteger(v: Json)
  {
    v.Num? && v.n.Int?
  }
}

=== FILE: numeric.dfy ===
/**
 The three numeric helpers of index.js: the trial-division prime test, the
 recursive Euclidean gcd and the lcm derived from it.

 The helpers run on JavaScript numbers. Here they run on mathematical
 integers: the remainder operator is modelled as JavaScript's (its sign
 follows the dividend), and the one non-integer value integers can produce,
 the NaN of lcm(0, 0) = 0 / 0, is a value of its own.
 */
module NumericHelpers {
  import opened Divisibility

  // ---------- isPrime ----------

  /** n is prime: at least 2, and no integer strictly between 1 and n divides it. */
  ghost predicate Prime(n: int)
  {
    n >= 2 && forall d :: 2 <= d < n ==> !Divides(d, n)
  }

  /** The trial-division loop of isPrime, from candidate divisor i onwards:
      it stops with true once i * i exceeds n, with false at the first i that
      divides n. */
  function NoDivisorFrom(n: int, i: int): bool
    requires 2 <= i
    decreases n - i
  {
    if i * i > n then true
    else
      assert i < n by { MulAtLeast(i, i); }
      n % i != 0 && NoDivisorFrom(n, i + 1)
  }

  /** isPrime(n): false below 2, otherwise true when no divisor is found up to the square root. */
  function IsPrime(n: int): bool
  {
    n >= 2 && NoDivisorFrom(n, 2)
  }

  /** The trial-division loop checks exactly the candidates i, i + 1, ... whose square is at most n. */
  lemma {:induction false} NoDivisorFromMeaning(n: int, i: int)
    requires 2 <= i
    ensures NoDivisorFrom(n, i) <==> forall d :: i <= d && d * d <= n ==> !Divides(d, n)
    decreases n - i
  {
    if i * i > n {
      forall d | i <= d && d * d <= n
        ensures false
      {
        MulMonotone(i, d);
      }
    } else {
      assert i < n by { MulAtLeast(i, i); }
      NoDivisorFromMeaning(n, i + 1);
      if NoDivisorFrom(n, i) {
        forall d | i <= d && d * d <= n
          ensures !Divides(d, n)
        {
          if d > i {
            assert i + 1 <= d;
          }
        }
      } else if n % i == 0 {
        assert Divides(i, n);
      }
    }
  }

  lemma MulMonotone(i: int, d: int)
    requires 0 <= i <= d
    ensures i * i <= d * d
  {
    assert i * i <= i * d;
  }

  /** A composite n has a divisor no larger than its square root: if d divides
      n and d * d > n, the cofactor n / d does. */
  lemma SmallCofactor(n: int, d: int) returns (e: int)
    requires 2 <= d < n && Divides(d, n) && d * d > n
    ensures 2 <= e < d && e * e <= n && Divides(e, n) && e * d == n
  {
    DividesQuotient(d, n);
    e := n / d;
    assert e * d == n;
    assert 2 <= e;
    assert e < d;
    assert e * e <= e * d;
    DividesWitness(e, n, d);
  }

  /** isPrime decides primality, for every integer. */
  lemma IsPrimeMeansPrime(n: int)
    ensures IsPrime(n) <==> Prime(n)
  {
    if n >= 2 {
      NoDivisorFromMeaning(n, 2);
      if IsPrime(n) {
        forall d | 2 <= d < n
          ensures !Divides(d, n)
        {
          if Divides(d, n) && d * d > n {
            var e := SmallCofactor(n, d);
          }
        }
      } else {
        var d :| 2 <= d && d * d <= n && Divides(d, n);
        assert d < n by { MulAtLeast(d, d); }
      }
    }
  }

  /** isPrime as written in index.js: a loop over the candidate divisor i,
      returning early at the first divisor found. */
  method IsPrimeLoop(n: int) returns (r: bool)
    ensures r <==> Prime(n)
    ensures r == IsPrime(n)
  {
    IsPrimeMeansPrime(n);
    if n < 2 {
      return false;
    }
    var i := 2;
    while i * i <= n
      invariant 2 <= i
      invariant forall d :: 2 <= d < i ==> !Divides(d, n)
      decreases n - i
    {
      assert i < n by { MulAtLeast(i, i); }
      if n % i == 0 {
        assert Divides(i, n);
        return false;
      }
      i := i + 1;
    }
    forall d | 2 <= d < n
      ensures !Divides(d, n)
    {
      if d >= i && Divides(d, n) {
        MulMonotone(i, d);
        var e := SmallCofactor(n, d);
        CofactorBelow(n, i, d, e);
      }
    }
    return true;
  }

  /** Once i * i exceeds n, a factorisation e * d == n with d >= i has e < i. */
  lemma CofactorBelow(n: int, i: int, d: int, e: int)
    requires 0 <= i <= d && 0 <= e && e * d == n && n < i * i
    ensures e < i
  {
    if e >= i {
      MulBoth(i, e, i, d);
    }
  }

  lemma MulBoth(a: int, b: int, c: int, d: int)
    requires 0 <= a <= b && 0 <= c <= d
    ensures a * c <= b * d
  {
    assert a * c <= b * c;
    assert b * c <= b * d;
  }

  // ---------- gcd ----------

  /** JavaScript's `a % b` on integers: the remainder of the division
      truncated toward zero, whose sign follows the dividend a. */
  function JsRem(a: int, b: int): (r: int)
    requires b != 0
    ensures Abs(r) < Abs(b)
    ensures r == 0 || (r < 0 <==> a < 0)
    ensures Divides(b, a - r)
  {
    if a >= 0 then
      DividesWitness(b, a - a % b, a / b);
      a % b
    else
      DividesWitness(b, a + (-a) % b, -((-a) / b));
      -((-a) % b)
  }

  /** gcd(a, b) = b === 0 ? a : gcd(b, a % b). Whatever the signs, the result
      divides a and b and every common divisor of a and b divides it; on
      non-negative arguments it is non-negative. */
  function Gcd(a: int, b: int): (g: int)
    ensures Divides(g, a) && Divides(g, b)
    ensures forall d :: Divides(d, a) && Divides(d, b) ==> Divides(d, g)
    ensures a >= 0 && b >= 0 ==> g >= 0
    decreases Abs(b)
  {
    if b == 0 then
      DividesSelf(a);
      DividesZero(a);
      a
    else
      var r := JsRem(a, b);
      var g := Gcd(b, r);
      RemainderKeepsCommonDivisors(a, b, r);
      g
  }

  /** One Euclidean step changes the pair but not its common divisors. */
  lemma RemainderKeepsCommonDivisors(a: int, b: int, r: int)
    requires b != 0 && Divides(b, a - r)
    ensures forall d :: Divides(d, a) && Divides(d, b) <==> Divides(d, b) && Divides(d, r)
  {
    forall d
      ensures Divides(d, a) && Divides(d, b) <==> Divides(d, b) && Divides(d, r)
    {
      DividesQuotient(b, a - r);
      var q := (a - r) / b;
      if Divides(d, a) && Divides(d, b) {
        DividesCombination(d, a, b, 1, -q);
        assert 1 * a + (-q) * b == r;
      }
      if Divides(d, b) && Divides(d, r) {
        DividesCombination(d, r, b, 1, q);
        assert 1 * r + q * b == a;
      }
    }
  }

  /** gcd is 0 exactly when both arguments are 0. */
  lemma GcdZero(a: int, b: int)
    ensures Gcd(a, b) == 0 <==> a == 0 && b == 0
  {
    if a == 0 && b == 0 {
      DividesZero(0);
    }
  }

  /** On non-negative arguments, not both 0, gcd is the greatest common divisor. */
  lemma GcdGreatest(a: int, b: int, d: int)
    requires a >= 0 && b >= 0 && (a != 0 || b != 0)
    requires Divides(d, a) && Divides(d, b)
    ensures 0 < Gcd(a, b) && d <= Gcd(a, b)
  {
    GcdZero(a, b);
    DividesBound(d, Gcd(a, b));
  }

  /** Whatever the signs of the arguments, gcd agrees with the gcd of their
      absolute values up to sign. */
  lemma GcdAbs(a: int, b: int)
    ensures Abs(Gcd(a, b)) == Gcd(Abs(a), Abs(b))
  {
    var g, h := Gcd(a, b), Gcd(Abs(a), Abs(b));
    assert Divides(Abs(g), h) by {
      DividesAbs(g, a);
      DividesAbs(g, b);
      CommonDivisorDividesGcd(Abs(g), Abs(a), Abs(b));
    }
    assert Divides(h, Abs(g)) by {
      DividesAbs(h, a);
      DividesAbs(h, b);
      CommonDivisorDividesGcd(h, a, b);
      DividesAbs(h, g);
    }
    DividesAntisymmetric(Abs(g), h);
  }

  lemma CommonDivisorDividesGcd(d: int, a: int, b: int)
    requires Divides(d, a) && Divides(d, b)
    ensures Divides(d, Gcd(a, b))
  {
  }

  /** Divisibility ignores signs. */
  lemma DividesAbs(d: int, n: int)
    ensures Divides(d, n) <==> Divides(Abs(d), Abs(n))
  {
    DivisorSign(d, n);
    DividendSign(d, n);
    DividendSign(-d, n);
  }

  lemma DivisorSign(d: int, n: int)
    ensures Divides(d, n) <==> Divides(-d, n)
  {
    if d < 0 {
      ModNegDivisor(n, d);
    } else if d > 0 {
      ModNegDivisor(n, -d);
    }
  }

  lemma DividendSign(d: int, n: int)
    ensures Divides(d, n) <==> Divides(d, -n)
  {
    if Divides(d, n) {
      DividesCombination(d, n, n, -1, 0);
    }
    if Divides(d, -n) {
      DividesCombination(d, -n, -n, -1, 0);
    }
  }

  /** gcd distributes over a common non-negative factor. */
  lemma {:induction false} GcdScale(c: int, x: int, y: int)
    requires c >= 0 && x >= 0 && y >= 0
    ensures Gcd(c * x, c * y) == c * Gcd(x, y)
    decreases y
  {
    if y == 0 {
    } else if c == 0 {
    } else {
      ModScale(c, x, y);
      assert c * y > 0;
      assert JsRem(c * x, c * y) == c * (x % y);
      GcdScale(c, y, x % y);
    }
  }

  lemma ModScale(c: int, x: int, y: int)
    requires c > 0 && x >= 0 && y > 0
    ensures (c * x) % (c * y) == c * (x % y)
  {
    var q, r := x / y, x % y;
    assert x == y * q + r;
    assert c * x == (c * y) * q + c * r by {
      calc {
        c * x;
        c * (y * q + r);
        c * (y * q) + c * r;
        (c * y) * q + c * r;
      }
    }
    assert c * r < c * y by { MulStrict(c, r, y); }
    DivModUnique(c * x, c * y, q, c * r);
  }

  lemma MulStrict(c: int, r: int, y: int)
    requires c > 0 && r < y
    ensures c * r < c * y
  {
    assert c * y - c * r == c * (y - r);
    MulAtLeast(c, y - r);
  }

  // ---------- lcm ----------

  /** A JavaScript number produced from integers by lcm: an integer, or the NaN of 0 / 0. */
  datatype LcmValue = Whole(value: int) | NaN

  /** lcm(a, b) = (a * b) / gcd(a, b). The division is exact, so the result is
      an integer, and a common multiple of a and b; it is NaN only for
      lcm(0, 0), where gcd is 0. */
  function Lcm(a: int, b: int): (l: LcmValue)
    ensures l.NaN? <==> a == 0 && b == 0
    ensures l.Whole? ==> l.value * Gcd(a, b) == a * b
    ensures l.Whole? ==> Divides(a, l.value) && Divides(b, l.value)
  {
    var g := Gcd(a, b);
    GcdZero(a, b);
    if g == 0 then NaN
    else
      QuotientByGcd(a, b, g);
      Whole(a * b / g)
  }

  /** When g != 0 divides both a and b, a * b / g is exact and is a multiple of both a and b. */
  lemma QuotientByGcd(a: int, b: int, g: int)
    requires g != 0 && Divides(g, a) && Divides(g, b)
    ensures (a * b / g) * g == a * b
    ensures Divides(a, a * b / g) && Divides(b, a * b / g)
  {
    DividesQuotient(g, b);
    var k := b / g;
    assert a * b == g * (a * k) by {
      calc {
        a * b;
        a * (g * k);
        g * (a * k);
      }
    }
    ExactQuotient(a * b, g, a * k);
    DividesWitness(a, a * k, k);
    DividesQuotient(g, a);
    var j := a / g;
    assert a * k == b * j by {
      calc {
        a * k;
        (g * j) * k;
        (g * k) * j;
        b * j;
      }
    }
    DividesWitness(b, a * k, j);
  }

  /** lcm of two non-zero integers is a non-zero integer. */
  lemma LcmNonZero(a: int, b: int)
    requires a != 0 && b != 0
    ensures Lcm(a, b).Whole? && Lcm(a, b).value != 0
  {
    var l := Lcm(a, b);
    assert l.value * Gcd(a, b) == a * b;
    assert a * b != 0;
  }

  lemma ExactQuotient(n: int, d: int, k: int)
    requires d != 0 && n == d * k
    ensures n / d == k
  {
    DividesWitness(d, n, k);
    DividesQuotient(d, n);
    assert d * (n / d - k) == 0;
  }

  /** On positive arguments, lcm is a positive common multiple that divides
      every common multiple: the least common multiple. */
  lemma LcmLeast(a: int, b: int, m: int)
    requires a > 0 && b > 0
    requires Divides(a, m) && Divides(b, m)
    ensures Lcm(a, b).Whole? && Lcm(a, b).value > 0
    ensures Divides(Lcm(a, b).value, m)
  {
    var g := Gcd(a, b);
    GcdZero(a, b);
    var l := Lcm(a, b).value;
    DividesQuotient(g, a);
    DividesQuotient(g, b);
    var x, y := a / g, b / g;
    CoprimeCofactors(g, x, y);
    LcmShape(g, x, y, l);
    DividesAbs(a, m);
    DividesAbs(b, m);
    MultipleOfCoprimeProduct(g, x, y, Abs(m));
    DividesAbs(l, m);
  }

  /** Dividing a and b by their gcd g leaves coprime cofactors. */
  lemma CoprimeCofactors(g: int, x: int, y: int)
    requires g > 0 && x >= 0 && y >= 0 && Gcd(g * x, g * y) == g
    ensures Gcd(x, y) == 1
  {
    GcdScale(g, x, y);
    CancelLeft(g, Gcd(x, y), 1);
  }

  /** With a == g * x and b == g * y, lcm(a, b) == (g * x) * y. */
  lemma LcmShape(g: int, x: int, y: int, l: int)
    requires g > 0 && x > 0 && y > 0 && l * g == (g * x) * (g * y)
    ensures l == (g * x) * y && l > 0
  {
    assert (g * x) * (g * y) == ((g * x) * y) * g;
    CancelRight(l, (g * x) * y, g);
    assert g * x > 0;
  }

  /** A non-negative common multiple n of g * x and g * y, with x and y coprime,
      is a multiple of (g * x) * y. */
  lemma MultipleOfCoprimeProduct(g: int, x: int, y: int, n: int)
    requires g > 0 && x > 0 && y > 0 && n >= 0 && Gcd(x, y) == 1
    requires Divides(g * x, n) && Divides(g * y, n)
    ensures Divides((g * x) * y, n)
  {
    assert g * x > 0;
    DividesQuotient(g * x, n);
    var s := n / (g * x);
    assert s >= 0;
    MulAssoc(g, x, s);
    DividesCancel(g, y, x * s);
    DividesWitness(y, y * s, s);
    GcdScale(s, x, y);
    assert s * x == x * s && s * y == y * s;
    CommonDivisorDividesGcd(y, s * x, s * y);
    assert Divides(y, s);
    DividesQuotient(y, s);
    var u := s / y;
    MulAssoc(g * x, y, u);
    DividesWitness((g * x) * y, n, u);
  }

  lemma MulAssoc(a: int, b: int, c: int)
    ensures (a * b) * c == a * (b * c)
  {
  }

  lemma CancelRight(x: int, y: int, c: int)
    requires c != 0 && x * c == y * c
    ensures x == y
  {
    assert (x - y) * c == 0;
  }

  lemma CancelLeft(c: int, x: int, y: int)
    requires c != 0 && c * x == c * y
    ensures x == y
  {
    assert c * (x - y) == 0;
  }

  lemma DividesCancel(c: int, x: int, y: int)
    requires c != 0 && Divides(c * x, c * y)
    ensures Divides(x, y)
  {
    if x == 0 {
      assert c * y == 0;
    } else {
      DividesQuotient(c * x, c * y);
      var k := (c * y) / (c * x);
      assert c * y == c * (x * k);
      CancelLeft(c, y, x * k);
      DividesWitness(x, y, k);
    }
  }
}

=== FILE: operations.dfy ===
/**
 The computations behind the five operations of POST /bfhl, each on an
 already validated value: the Fibonacci prefix, the prime filter, the lcm and
 hcf reductions and the first-word extraction of the generated text.
 */
module Operations {
  import opened Wrappers
  import opened JsonValues
  import opened Divisibility
  import opened NumericHelpers

  // ---------- fibonacci ----------

  /** The Fibonacci numbers 0, 1, 1, 2, 3, 5, ... */
  function Fib(k: nat): nat
  {
    if k < 2 then k else Fib(k - 1) + Fib(k - 2)
  }

  /** What the fibonacci operation promises of its answer for n: exactly n
      elements, starting 0, 1, each later one the sum of the two before it. */
  ghost predicate IsFibonacciPrefix(s: seq<int>, n: nat)
  {
    && |s| == n
    && (n >= 1 ==> s[0] == 0)
    && (n >= 2 ==> s[1] == 1)
    && forall k :: 2 <= k < n ==> s[k] == s[k - 1] + s[k - 2]
  }

  /** The first n Fibonacci numbers. */
  function FibonacciPrefix(n: nat): (r: seq<int>)
    ensures IsFibonacciPrefix(r, n)
  {
    seq(n, k requires 0 <= k < n => Fib(k))
  }

  /** The promise determines the answer: only the first n Fibonacci numbers keep it. */
  lemma FibonacciPrefixUnique(s: seq<int>, n: nat)
    requires IsFibonacciPrefix(s, n)
    ensures s == FibonacciPrefix(n)
  {
    forall k | 0 <= k < n
      ensures s[k] == Fib(k)
    {
      PrefixElement(s, n, k);
    }
  }

  lemma {:induction false} PrefixElement(s: seq<int>, n: nat, k: nat)
    requires IsFibonacciPrefix(s, n) && k < n
    ensures s[k] == Fib(k)
  {
    if k >= 2 {
      PrefixElement(s, n, k - 1);
      PrefixElement(s, n, k - 2);
    }
  }

  /** The fibonacci branch as written: the array starts as [0, 1], the loop
      pushes fib[i - 1] + fib[i - 2] for i = 2 .. n - 1, and the answer is
      its slice [0, n). */
  method FibonacciByPush(n: nat) returns (r: seq<int>)
    ensures IsFibonacciPrefix(r, n)
    ensures r == FibonacciPrefix(n)
  {
    var fib := [0, 1];
    var i := 2;
    while i < n
      invariant 2 <= i && (i <= n || i == 2)
      invariant |fib| == i
      invariant forall k :: 0 <= k < i ==> fib[k] == Fib(k)
    {
      fib := fib + [fib[i - 1] + fib[i - 2]];
      i := i + 1;
    }
    r := fib[..n];
  }

  // ---------- prime ----------

  /** `filter(x => Number.isInteger(x) && isPrime(x))`: the integer elements
      that pass the prime test, in their order. */
  function PrimeFilter(xs: seq<Json>): (r: seq<int>)
    ensures |r| <= |xs|
  {
    if xs == [] then []
    else
      var x := xs[0];
      (if IsInteger(x) && IsPrime(x.n.value) then [x.n.value] else []) + PrimeFilter(xs[1..])
  }

  /** The filter keeps primes only, and exactly the primes among the integer elements. */
  lemma {:induction false} PrimeFilterMeaning(xs: seq<Json>)
    ensures forall k :: 0 <= k < |PrimeFilter(xs)| ==> Prime(PrimeFilter(xs)[k])
    ensures forall p :: p in PrimeFilter(xs) <==> Num(Int(p)) in xs && Prime(p)
  {
    if xs != [] {
      var x := xs[0];
      PrimeFilterMeaning(xs[1..]);
      assert xs == [x] + xs[1..];
      IsPrimeMeansPrime(if IsInteger(x) then x.n.value else 0);
    }
  }

  /** The answer starts with the first element exactly when it is a prime
      integer, and goes on with the answer for the rest. */
  lemma PrimeFilterCons(x: Json, rest: seq<Json>)
    ensures PrimeFilter([x] + rest)
         == (if IsInteger(x) && Prime(x.n.value) then [x.n.value] else []) + PrimeFilter(rest)
  {
    if IsInteger(x) {
      IsPrimeMeansPrime(x.n.value);
    }
    assert ([x] + rest)[0] == x && ([x] + rest)[1..] == rest;
  }

  /** One element: kept exactly when it is an integer that is prime. */
  lemma PrimeFilterSingle(x: Json)
    ensures PrimeFilter([x]) == if IsInteger(x) && Prime(x.n.value) then [x.n.value] else []
  {
    if IsInteger(x) {
      IsPrimeMeansPrime(x.n.value);
    }
    assert [x][1..] == [];
  }

  /** The filter works element by element: filtering a concatenation is
      concatenating the filtered parts, so the answer keeps the input's order. */
  lemma {:induction false} PrimeFilterAppend(xs: seq<Json>, ys: seq<Json>)
    ensures PrimeFilter(xs + ys) == PrimeFilter(xs) + PrimeFilter(ys)
  {
    if xs == [] {
      assert xs + ys == ys;
    } else {
      assert (xs + ys)[1..] == xs[1..] + ys;
      PrimeFilterAppend(xs[1..], ys);
    }
  }

  // ---------- lcm and hcf ----------

  /** Every element of xs is a multiple of d. */
  ghost predicate CommonDivisor(d: int, xs: seq<int>)
  {
    forall x :: x in xs ==> Divides(d, x)
  }

  /** m is a multiple of every element of xs. */
  ghost predicate CommonMultiple(m: int, xs: seq<int>)
  {
    forall x :: x in xs ==> Divides(x, m)
  }

  /** `xs.reduce((acc, val) => gcd(acc, val))` on a non-empty array of
      integers: a left fold seeded with the first element. */
  function HcfFold(xs: seq<int>): int
    requires |xs| > 0
  {
    if |xs| == 1 then xs[0] else Gcd(HcfFold(xs[..|xs| - 1]), xs[|xs| - 1])
  }

  /** The hcf reduction is a greatest common divisor of all the elements:
      it divides each of them, and every common divisor divides it; on
      non-negative elements it is non-negative. */
  lemma {:induction false} HcfFoldIsGcd(xs: seq<int>)
    requires |xs| > 0
    ensures CommonDivisor(HcfFold(xs), xs)
    ensures forall d :: CommonDivisor(d, xs) ==> Divides(d, HcfFold(xs))
    ensures (forall x :: x in xs ==> x >= 0) ==> HcfFold(xs) >= 0
  {
    if |xs| > 1 {
      var init, last := xs[..|xs| - 1], xs[|xs| - 1];
      assert xs == init + [last];
      HcfFoldIsGcd(init);
      HcfStep(init, last, HcfFold(init), HcfFold(xs));
    }
  }

  /** The inductive step of HcfFoldIsGcd: gcd(h', last) for a gcd h' of init is a gcd of init + [last]. */
  lemma HcfStep(init: seq<int>, last: int, h': int, h: int)
    requires CommonDivisor(h', init)
    requires forall d :: CommonDivisor(d, init) ==> Divides(d, h')
    requires (forall x :: x in init ==> x >= 0) ==> h' >= 0
    requires h == Gcd(h', last)
    ensures CommonDivisor(h, init + [last])
    ensures forall d :: CommonDivisor(d, init + [last]) ==> Divides(d, h)
    ensures (forall x :: x in init + [last] ==> x >= 0) ==> h >= 0
  {
    var xs := init + [last];
    forall x | x in xs
      ensures Divides(h, x)
    {
      if x in init {
        DividesTrans(h, h', x);
      }
    }
    forall d | CommonDivisor(d, xs)
      ensures Divides(d, h)
    {
      assert CommonDivisor(d, init) by {
        forall x | x in init ensures Divides(d, x) { assert x in xs; }
      }
      CommonDivisorDividesGcd(d, h', last);
    }
    if forall x :: x in xs ==> x >= 0 {
      assert forall x :: x in init ==> x in xs;
      assert last in xs;
    }
  }

  /** With a negative element the sign of the hcf depends on the order. */
  lemma HcfOrderMatters()
    ensures HcfFold([3, -3]) == -3
    ensures HcfFold([-3, 3]) == 3
  {
  }

  /** The order in which the hcf reduction meets non-negative elements does not change its result. */
  lemma HcfFoldPermutation(xs: seq<int>, ys: seq<int>)
    requires |xs| > 0 && multiset(xs) == multiset(ys)
    requires forall x :: x in xs ==> x >= 0
    ensures |ys| == |xs|
    ensures HcfFold(xs) == HcfFold(ys)
  {
    SameElements(xs, ys);
    HcfFoldIsGcd(xs);
    HcfFoldIsGcd(ys);
    DividesAntisymmetric(HcfFold(xs), HcfFold(ys));
  }

  lemma SameElements(xs: seq<int>, ys: seq<int>)
    requires multiset(xs) == multiset(ys)
    ensures |xs| == |ys| && forall x :: x in xs <==> x in ys
  {
    assert |xs| == |multiset(xs)|;
    forall x
      ensures x in xs <==> x in ys
    {
      assert x in xs <==> x in multiset(xs);
      assert x in ys <==> x in multiset(ys);
    }
  }

  /** The message of the RangeError the JavaScript engine raises when a
      recursion never ends. */
  const StackOverflow := "Maximum call stack size exceeded"

  /** One step of `reduce((acc, val) => lcm(acc, val))`. Once the accumulator
      is NaN, gcd(NaN, v) returns NaN when v is 0 and otherwise recurses
      forever, since NaN is never 0; that ends in the engine's RangeError. */
  function LcmStep(acc: LcmValue, v: int): Result<LcmValue, string>
  {
    match acc
    case Whole(a) => Success(Lcm(a, v))
    case NaN => if v == 0 then Success(NaN) else Failure(StackOverflow)
  }

  /** `xs.reduce((acc, val) => lcm(acc, val))` on a non-empty array of
      integers: a left fold seeded with the first element. */
  function LcmFold(xs: seq<int>): Result<LcmValue, string>
    requires |xs| > 0
  {
    if |xs| == 1 then Success(Whole(xs[0]))
    else
      match LcmFold(xs[..|xs| - 1])
      case Failure(e) => Failure(e)
      case Success(acc) => LcmStep(acc, xs[|xs| - 1])
  }

  /** The lcm reduction fails only with the engine's endless-recursion error,
      and only after an lcm(0, 0) made the accumulator NaN: that takes two
      zeros, and an accumulator of 0 takes one. */
  lemma {:induction false} LcmFoldFailure(xs: seq<int>)
    requires |xs| > 0
    ensures LcmFold(xs).Failure? ==> LcmFold(xs).error == StackOverflow && multiset(xs)[0] >= 2
    ensures LcmFold(xs) == Success(NaN) ==> multiset(xs)[0] >= 2
    ensures LcmFold(xs) == Success(Whole(0)) ==> 0 in xs
  {
    if |xs| > 1 {
      var init, last := xs[..|xs| - 1], xs[|xs| - 1];
      assert xs == init + [last];
      assert multiset(xs) == multiset(init) + multiset{last};
      LcmFoldFailure(init);
      if LcmFold(init).Success? && LcmFold(init).value.Whole? {
        var a := LcmFold(init).value.value;
        if a != 0 && last != 0 {
          LcmNonZero(a, last);
        }
      }
    }
  }

  /** The order of the elements matters once zeros are among them. */
  lemma LcmOrderMatters()
    ensures LcmFold([0, 0, 5]) == Failure(StackOverflow)
    ensures LcmFold([5, 0, 0]) == Success(NaN)
  {
  }

  /** On positive elements, the lcm reduction is an integer: a positive common
      multiple of all the elements that divides every common multiple. */
  lemma {:induction false} LcmFoldIsLcm(xs: seq<int>)
    requires |xs| > 0 && forall x :: x in xs ==> x > 0
    ensures LcmFold(xs).Success? && LcmFold(xs).value.Whole?
    ensures LcmFold(xs).value.value > 0
    ensures CommonMultiple(LcmFold(xs).value.value, xs)
    ensures forall m :: CommonMultiple(m, xs) ==> Divides(LcmFold(xs).value.value, m)
  {
    if |xs| == 1 {
      DividesSelf(xs[0]);
      assert xs[0] in xs;
    } else {
      var init, last := xs[..|xs| - 1], xs[|xs| - 1];
      assert xs == init + [last];
      assert last in xs && forall x :: x in init ==> x in xs;
      LcmFoldIsLcm(init);
      var l' := LcmFold(init).value.value;
      assert LcmFold(xs) == LcmStep(Whole(l'), last);
      LcmStepIsLcm(init, last, l');
    }
  }

  /** The inductive step of LcmFoldIsLcm: lcm(l', last) for a least common
      multiple l' of init is a least common multiple of init + [last]. */
  lemma LcmStepIsLcm(init: seq<int>, last: int, l': int)
    requires l' > 0 && last > 0
    requires CommonMultiple(l', init)
    requires forall m :: CommonMultiple(m, init) ==> Divides(l', m)
    ensures Lcm(l', last).Whole? && Lcm(l', last).value > 0
    ensures CommonMultiple(Lcm(l', last).value, init + [last])
    ensures forall m :: CommonMultiple(m, init + [last]) ==> Divides(Lcm(l', last).value, m)
  {
    var xs := init + [last];
    LcmLeast(l', last, l' * last) by {
      DividesWitness(l', l' * last, last);
      DividesWitness(last, l' * last, l');
    }
    var l := Lcm(l', last).value;
    forall x | x in xs
      ensures Divides(x, l)
    {
      if x in init {
        DividesTrans(x, l', l);
      }
    }
    forall m | CommonMultiple(m, xs)
      ensures Divides(l, m)
    {
      assert CommonMultiple(m, init) by {
        forall x | x in init ensures Divides(x, m) { assert x in xs; }
      }
      assert last in xs;
      LcmLeast(l', last, m);
    }
  }

  /** With no 0 among the elements the lcm reduction never meets NaN: it is a
      non-zero integer, whatever the signs. */
  lemma {:induction false} LcmFoldNonZero(xs: seq<int>)
    requires |xs| > 0 && forall x :: x in xs ==> x != 0
    ensures LcmFold(xs).Success? && LcmFold(xs).value.Whole?
    ensures LcmFold(xs).value.value != 0
  {
    if |xs| == 1 {
      assert xs[0] in xs;
    } else {
      var init, last := xs[..|xs| - 1], xs[|xs| - 1];
      assert xs == init + [last];
      assert last in xs && forall x :: x in init ==> x in xs;
      LcmFoldNonZero(init);
      var l' := LcmFold(init).value.value;
      assert LcmFold(xs) == LcmStep(Whole(l'), last);
      LcmNonZero(l', last);
    }
  }

  /** The order in which the lcm reduction meets positive elements does not change its result. */
  lemma LcmFoldPermutation(xs: seq<int>, ys: seq<int>)
    requires |xs| > 0 && multiset(xs) == multiset(ys)
    requires forall x :: x in xs ==> x > 0
    ensures |ys| == |xs|
    ensures LcmFold(xs) == LcmFold(ys)
  {
    SameElements(xs, ys);
    LcmFoldIsLcm(xs);
    LcmFoldIsLcm(ys);
    DividesAntisymmetric(LcmFold(xs).value.value, LcmFold(ys).value.value);
  }

  // ---------- AI ----------

  /** `s.split(" ")[0]`: the text before the first space, all of it when
      there is none. */
  function FirstSegment(s: string): (w: string)
    ensures w <= s
    ensures ' ' !in w
    ensures |w| == |s| || s[|w|] == ' '
  {
    if s == [] || s[0] == ' ' then [] else [s[0]] + FirstSegment(s[1..])
  }

  /** The three properties pick out exactly one prefix. */
  lemma {:induction false} FirstSegmentUnique(s: string, w: string)
    requires w <= s && ' ' !in w && (|w| == |s| || s[|w|] == ' ')
    ensures w == FirstSegment(s)
  {
    if s != [] && s[0] != ' ' {
      assert w != [] && w[0] == s[0];
      assert w[1..] <= s[1..];
      assert ' ' !in w[1..] by { assert forall c :: c in w[1..] ==> c in w; }
      FirstSegmentUnique(s[1..], w[1..]);
      assert w == [w[0]] + w[1..];
    }
  }

  /** `text?.split(" ")[0] || "Unknown"` on the text of the first candidate of
      the generated answer, when there is one. */
  function FirstWord(text: Option<string>): (w: string)
    ensures text.None? ==> w == "Unknown"
    ensures text.Some? && (text.value == "" || text.value[0] == ' ') ==> w == "Unknown"
    ensures text.Some? && text.value != "" && text.value[0] != ' ' ==>
      && w <= text.value && ' ' !in w
      && (|w| == |text.value| || text.value[|w|] == ' ')
    ensures w != "" && ' ' !in w
  {
    match text
    case None => "Unknown"
    case Some(s) =>
      var first := FirstSegment(s);
      if first == "" then "Unknown" else first
  }

  /** Only the space character separates words: a newline stays inside the word. */
  lemma FirstWordKeepsNewline()
    ensures FirstWord(Some("a\nb c")) == "a\nb"
  {
  }
}

=== FILE: wrappers.dfy ===
/** Optional values and success-or-failure results, in place of JavaScript's
    undefined and thrown errors. */
module Wrappers {

  datatype Option<+T> = None | Some(value: T)

  /** The value of a computation, or the message of the error it raised. */
  datatype Result<+T, +E> = Success(value: T) | Failure(error: E)
}
